=== FILE: README.md ===
# Full-screen clock: a Dafny model of its clock engine and preference store

The clock page (scripts.js) shows the time of day as `HH：MM：SS` in a
large, glowing readout. Its `NTPClock` class reads a time-zone offset from
`localStorage` (default UTC+8), renders the UTC fields of the wall clock
plus that offset, and re-arms itself so that, from a non-negative instant, every run is
aimed at the next whole second; every ten seconds it nudges the readout by a small random amount
so that a static picture does not burn into the screen. The page handler
restores a saved colour and font at load, saves a new colour or font
whenever a picker changes, and a reset button returns both to their
defaults.

The model is functional. `localStorage` is a `map<string, string>`, the
time element's inline style and the two pickers are a `Page` value, and
every handler is a function from the store and the page to their new
versions. The wall clock, the timers and `Math.random` are inputs: the
clock operations take the adjusted instant or the random draw they would
have read.

Modules:

- `Wrappers` (wrappers.dfy): the `Option` type; `None` stands for `null`
  and `NaN`.
- `JsText` (js_text.dfy): the JavaScript built-ins the core uses, as
  ECMA-262 defines them: `parseInt` with no radix (leading white space,
  sign, `0x` prefix, longest digit run), Number::toString on integers,
  `padStart` and `includes`.
- `TimeValue` (time_value.dfy): time values and HourFromTime, MinFromTime,
  SecFromTime and TimeClip of section 21.4.1 of ECMA-262, and the 24-hour
  face with its one-second successor.
- `Storage` (storage.dfy): the store, its keys, `getItem`, and the
  truthiness of what `getItem` returns.
- `NtpClock` (ntp_clock.dfy): the constructor's offset, `saveOffsetIfNotSet`,
  `updateTime` (`Render`, `ReArmDelay`, `Tick`) and `applyBurnInShift`.
- `Preferences` (preferences.dfy): the load-time restore, the colour and
  font handlers and the reset handler.

JavaScript's `%` truncates toward zero while Dafny's is Euclidean;
`NtpClock.JsRemainder` writes the truncating remainder out, so `Tick`
needs no precondition on the instant. The UTC field formulas of ECMA-262
use floor division and a non-negative modulo, which are Dafny's `/` and
`%` for a positive divisor.

Points of scripts.js that the model keeps as written:

- Reset removes `timeColor` and `timeFont`; it writes nothing back
  (scripts.js:169-170).
- Only the font handler applies the font-size rule (scripts.js:126-130).
  The load and the reset set the family alone (scripts.js:110-113, 164).
- `parseInt(...) || DEFAULT_OFFSET` falls back on a stored zero as well
  as on text that is not a number, since 0 and NaN are both falsy
  (scripts.js:5). Text after the number is ignored: `"3600000abc"` gives
  3600000.
- The burn-in displacement lies in [-1.5, 1.5), half-open, because
  `Math.random()` never returns 1 (scripts.js:31-32).

## Model

| member | source | states |
|---|---|---|
| JsText.NatToString | scripts.js:26 | The decimal text of a number has no leading zero, and its digits read back in base 10 give the number. |
| JsText.ParseIntOfNumberText | scripts.js:5 | `parseInt` gives back any integer from its decimal text. Anything after the text is ignored unless it continues the number: a further digit, or an `x` after a lone `0`, which makes a hexadecimal prefix. |
| JsText.PadStart | scripts.js:39-41 | `padStart` leaves a string that is already long enough unchanged. Otherwise it brings the string to the target length by putting fill characters in front. |
| JsText.ParseInt | scripts.js:5 | `parseInt` reads a number only where a sign or a digit follows the leading white space. The number is negative only after a minus sign. |
| JsText.ParseIntSkipsSpace | scripts.js:5 | `parseInt` reads text after a run of white space as if the run were not there. |
| JsText.ParseIntOfDigitRun | scripts.js:5 | White space, an optional `+` or `-` and a run of decimal digits give the run's value, negated after `-`, leading zeros included. Text after the run is ignored unless it continues the number. |
| JsText.ParseIntWithoutDigits | scripts.js:5 | With no decimal digit after the white space and the optional sign, the result is NaN, as for "", "+", "-abc" and "null". |
| JsText.IntToString | scripts.js:26 | Number::toString of an integer starts with a minus sign exactly when the integer is negative. The digits after it read back as the magnitude. |
| JsText.Includes | scripts.js:126 | `includes` finds the empty string in any string, and finds nothing longer than the string itself. `IncludesIffOccurs` characterises it fully. |
| JsText.IncludesIffOccurs | scripts.js:126 | `includes` finds the search string exactly when it occurs at some position. |
| JsText.TrimStart | scripts.js:5 | What the trim keeps is a suffix of the input that starts with no white space or line terminator. |
| JsText.TrimStartDropsOnlySpace | scripts.js:5 | Every character the trim drops is white space or a line terminator. |
| NtpClock.LoadOffset | scripts.js:5-9 | The offset is never zero. It is the default 8 h or the number parsed from the stored text, and it is that number whenever that number is not zero. |
| NtpClock.OffsetFallsBack | scripts.js:5-9 | A missing offset, text that does not parse, and a stored zero each give 28800000. |
| NtpClock.NonNumericOffsetExample | scripts.js:5-9 | A stored "not-a-number" gives the default offset. |
| NtpClock.OffsetIsParsedValue | scripts.js:5-9 | The offset differs from the default exactly when the stored text parses to a number other than zero and other than the default. |
| NtpClock.OffsetIgnoresTrailingText | scripts.js:5 | A nonzero number stored with text after it that does not continue it, such as "3600000 " or "3600000abc", gives that number. |
| NtpClock.OffsetRoundTrip | scripts.js:5 | A nonzero offset stored as its decimal text is read back exactly. |
| NtpClock.SaveOffsetIfNotSet | scripts.js:24-28 | A missing or empty offset becomes "28800000". A truthy one leaves the store as it was. No other key changes. |
| NtpClock.SaveOffsetIdempotent | scripts.js:24-28 | Saving the default twice is saving it once. |
| NtpClock.StartOffsetSurvivesSave | scripts.js:2-27 | Reading the offset after `init` saved the default gives the same offset the constructor read before. |
| NtpClock.JsRemainder | scripts.js:43 | `%` takes the sign of the dividend, has magnitude below the divisor, and differs from the dividend by a multiple of the divisor. |
| NtpClock.Render | scripts.js:37-42 | For a valid Date the text has 8 characters: the UTC hour, minute and second of the adjusted instant, two digits each, with full-width colons between. Each field parses back to its value. Beyond the range of a Date, the text is NaN：NaN：NaN. |
| NtpClock.ReArmDelay | scripts.js:43-44 | The delay is in [1, 2000) and always ends on a whole second. From a non-negative instant or a whole second, that is the next whole second. From any other instant before the epoch, it is the one after. |
| NtpClock.Tick | scripts.js:36-45 | One run writes the zero-padded HH：MM：SS face of the instant, with full-width colons, and each field parses back to its hour, minute or second (ShowsClock). Beyond a Date's range, it writes NaN：NaN：NaN. The delay is in [1, 2000) and ends on a whole second, the next one from a non-negative instant (ArmsNextRun). |
| NtpClock.TickExample | scripts.js:36-45 | The instant 3661000 renders as 01：01：01 with a delay of 1000. |
| NtpClock.TwoDigitField | scripts.js:39-41 | A field below 100 is two decimal digits, a leading zero included, that parse back to the value. |
| NtpClock.ReArmDelayAdvancesFace | scripts.js:37-44 | From a non-negative instant: at the instant the next run fires, the face has moved on by one second, with carries into minutes and hours. The seconds field is one more, modulo 60. |
| NtpClock.TickScheduleNoDrift | scripts.js:36-45 | Over k successive runs from a non-negative instant, each starting less than a second after the delay it asked for, the k-th run falls within the k-th whole second after the first. Its seconds field is k more, modulo 60, so lateness does not build up into drift. |
| NtpClock.ReArmDelaySkipsASecondBeforeEpoch | scripts.js:43-44 | From a negative instant that is not a whole second, the delay exceeds 1000. The run lands two whole seconds on, and the seconds field skips one value. |
| NtpClock.AlignedDelay | scripts.js:43-44 | A delay in [1, 1000] that ends on the next whole second from any instant. |
| NtpClock.AlignedDelayAdvancesFace | scripts.js:43-44 | With the aligned delay, every run moves the face on by exactly one second. |
| NtpClock.ReArmDelayIsAligned | scripts.js:43-44 | The source's delay equals the aligned delay exactly when the instant is non-negative or a whole second. |
| NtpClock.BurnInComponent | scripts.js:30-32 | For a draw in [0, 1), each axis of the shift lies in [-1.5, 1.5). |
| NtpClock.BurnInShift | scripts.js:30-33 | Both axes of the shift lie in [-1.5, 1.5). |
| NtpClock.BurnInDraw | scripts.js:31-32 | Each displacement in [-1.5, 1.5) comes from exactly one draw in [0, 1). |
| TimeValue.TimeClip | scripts.js:38 | `new Date(now)` keeps the instant exactly when it lies within 8.64e15 ms of the epoch. Otherwise the Date is invalid. |
| TimeValue.FaceOfWholeSeconds | scripts.js:38-41 | The hour, minute and second fields depend only on the whole seconds of the instant. |
| TimeValue.NextWholeSecondAdvancesFace | scripts.js:38-41 | At the next whole second, the face is the one-second successor of the current face. |
| Preferences.Glow | scripts.js:118 | The glow has three layers, each in the given colour. It starts with "0 0 5px " followed by the colour, the second layer's colour follows ", 0 0 15px ", and the glow ends with the colour; its length is 30 + 3·\|c\|. |
| Preferences.FontSizeFor | scripts.js:126-130 | The size is 10vw exactly when "Sixtyfour" occurs in the font string, and 15vw otherwise. |
| Preferences.FontSizeExamples | scripts.js:126-130 | "Sixtyfour" gets 10vw and the default font gets 15vw. |
| Preferences.Load | scripts.js:101-113 | A truthy stored colour sets the colour, its glow and the picker, and a falsy one leaves them. A truthy stored font sets the family and the picker, and a falsy one leaves them. The font size never changes. |
| Preferences.SetColor | scripts.js:115-120 | The colour handler stores `timeColor` = c and keeps every other key. It sets the colour, the picker and the glow of c, and leaves the font alone. |
| Preferences.SetFont | scripts.js:122-133 | The font handler stores `timeFont` and keeps every other key. It sets the family and the matching size and leaves the colour alone. |
| Preferences.Reset | scripts.js:158-171 | Reset removes exactly `timeColor` and `timeFont`. It sets #FF8C00, the fixed orange glow and the default font, and keeps the font size. |
| Preferences.LoadIdempotent | scripts.js:101-113 | Loading twice from the same store is loading once. |
| Preferences.ColorRoundTrip | scripts.js:104-120 | A later load restores a colour the handler saved, with its glow and picker, into any page. Only the empty string is not restored. |
| Preferences.FontRoundTrip | scripts.js:110-133 | A non-empty font the handler saved is restored by a later load as family and picker. The empty font is falsy and is not restored. The size stays what the page had. |
| Preferences.ResetThenLoad | scripts.js:158-171 | After a reset every other key, `tz_offset` included, is unchanged. A load then changes nothing on the page. |
| Preferences.LoadLeavesSizeUnmatched | scripts.js:110-113 | After a load that restores a font, the size fits that font only if the page's size already did. |
| Preferences.LoadShowsWideFontLarge | scripts.js:110-113 | A saved "Sixtyfour" restored into a page at 15vw is shown at 15vw. |
| Preferences.ResetLeavesSizeUnmatched | scripts.js:158-171 | After a reset, the size fits the default font only if it was already 15vw. |
| Preferences.ResetAfterWideFont | scripts.js:122-171 | Choosing "Sixtyfour" and then resetting shows the default font at 10vw. |
| Preferences.LoadWithSize | scripts.js:110-130 | The load with the size rule applied: after it restores a font, the size fits that font. Otherwise it is exactly the load. |
| Preferences.ResetWithSize | scripts.js:158-171 | The reset with the size rule applied: the default font at 15vw. Otherwise it matches the reset. |
| Preferences.SizeRuleKept | scripts.js:101-171 | With the corrected load and reset, every handler keeps a page whose size fits its font in that state. |

## Left out

- Timers: `setTimeout`, `setInterval`, `requestAnimationFrame` and the actual re-scheduling (scripts.js:19, 44). `ReArmDelay` is the computed delay. How late each timer and animation frame starts is a parameter of `Firing`.
- The wall clock: `Date.now()` is not read. `Tick` takes the adjusted instant, wall clock + `ntpDelta` + offset, and `ntpDelta` is always 0 (scripts.js:6, 37).
- `Math.random()` and the `translate3d` style string (scripts.js:31-33). The draws are parameters, and only the displacement is modelled.
- The fullscreen button, the `fullscreenchange` handler, the mouse-move auto-hide timers of the controls and of the customisation panel, and the start-up message fade and removal (scripts.js:20-21, 56-93, 135-154). These are DOM and event plumbing.
- Service-worker registration (scripts.js:52-54) and the whole of sw.js. They hold Cache API and fetch plumbing only.
- A missing DOM element, and a `localStorage` that throws (disabled storage, exceeded quota). The model assumes the page's elements exist and that storage calls succeed.
- JsText.ParseInt: JavaScript numbers are doubles. A parsed value beyond 2^53 is rounded in the source, while the model keeps it exact. A parsed -0 is represented as 0; both are falsy, so the offset is the same.
- JsText.NatToString: gives the plain decimal form only. Number::toString switches to exponent notation from 10^21 on. The texts the core produces (the default offset and the clock fields) are far below that.
- NtpClock.BurnInComponent: computed over reals, not IEEE doubles. The rounding of `(r * 2 - 1) * 1.5` is not modelled.
- NtpClock.TickScheduleNoDrift: each run must start less than a second late. A run that starts a second or more late skips a seconds value, and the lemma says nothing about it.
- Preferences.Load: stores every style value verbatim. In the browser, the style setters ignore a value that does not parse as a colour or a font. So a `timeColor` edited outside the page to "notacolor" leaves the colour unchanged there, while the model sets it (scripts.js:105-106, 111).
- NtpClock.Render: the instant is taken as an integer. The sum `Date.now() + ntpDelta + tzOffset` is exact only while it stays below 2^53.

## Findings

| source | as written | input that shows it | evidently intended | confidence | as-written member | corrected member |
|---|---|---|---|---|---|---|
| scripts.js:43-44 | `1000 - now % 1000` with JavaScript's truncating `%` | adjusted instant -1, possible when the stored offset is below minus the wall clock: the delay is 1001, the run lands at 1000, and the seconds field goes from 59 to 01 | the delay to the next whole second, `1000 - ((now % 1000) + 1000) % 1000` | low; the offset must be about -54 years to reach it; not executed | NtpClock.ReArmDelaySkipsASecondBeforeEpoch | NtpClock.AlignedDelay |
| scripts.js:110-113 | the load sets only `fontFamily` | `timeFont` = "Sixtyfour" saved, page reloaded with the readout at 15vw: the wide font is shown at 15vw | the font handler's rule: 10vw for "Sixtyfour" | medium; not executed | Preferences.LoadShowsWideFontLarge | Preferences.LoadWithSize |
| scripts.js:158-171 | the reset sets the default font but not the size | choose "Sixtyfour" (10vw), then press reset: the default font is shown at 10vw | 15vw for the default font, as the font handler would set | medium; not executed | Preferences.ResetAfterWideFont | Preferences.ResetWithSize |

The main model follows the code as written. The corrected definitions
appear beside it, and `Preferences.SizeRuleKept` proves the intended
invariant about them.

=== FILE: js_text.dfy ===
/** The JavaScript built-ins the clock relies on, as ECMA-262 defines them:
    `parseInt` (section 19.2.5), `Number.prototype.toString` on integral
    values (section 6.1.6.1.20), `String.prototype.padStart` (section
    22.1.3.17) and `String.prototype.includes` (section 22.1.3.8). */
module JsText {
  import opened Wrappers

  /** StrWhiteSpaceChar: the WhiteSpace and LineTerminator code points that
      `parseInt` skips before the number. */
  predicate IsStrWhiteSpace(c: char) {
    || c == '\t' || c == '\U{000B}' || c == '\U{000C}' || c == '\U{FEFF}'
    || c == ' ' || c == '\U{00A0}' || c == '\U{1680}' || ('\U{2000}' <= c <= '\U{200A}')
    || c == '\U{202F}' || c == '\U{205F}' || c == '\U{3000}'
    || c == '\n' || c == '\r' || c == '\U{2028}' || c == '\U{2029}'
  }

  /** TrimString(s, start): `s` without its leading white space. */
  function TrimStart(s: string): (r: string)
    ensures |r| <= |s| && r == s[|s| - |r|..]
    ensures r == [] || !IsStrWhiteSpace(r[0])
  {
    if |s| > 0 && IsStrWhiteSpace(s[0]) then TrimStart(s[1..]) else s
  }

  /** What TrimStart drops is white space, and nothing else. */
  lemma {:induction false} TrimStartDropsOnlySpace(s: string)
    ensures forall i :: 0 <= i < |s| - |TrimStart(s)| ==> IsStrWhiteSpace(s[i])
  {
    if |s| > 0 && IsStrWhiteSpace(s[0]) {
      TrimStartDropsOnlySpace(s[1..]);
      assert forall i :: 1 <= i < |s| ==> s[i] == s[1..][i - 1];
    }
  }

  /** Trimming skips any run of white space up to the first other
      character. */
  lemma {:induction false} TrimStartSkips(w: string, s: string)
    requires forall i :: 0 <= i < |w| ==> IsStrWhiteSpace(w[i])
    requires s == [] || !IsStrWhiteSpace(s[0])
    ensures TrimStart(w + s) == s
    decreases |w|
  {
    if |w| == 0 {
      assert w + s == s;
    } else {
      assert (w + s)[0] == w[0];
      assert (w + s)[1..] == w[1..] + s;
      assert forall i :: 0 <= i < |w[1..]| ==> w[1..][i] == w[i + 1];
      TrimStartSkips(w[1..], s);
    }
  }

  /** A string that starts with anything but white space is not trimmed. */
  lemma TrimStartKeeps(s: string)
    requires |s| > 0 && !IsStrWhiteSpace(s[0])
    ensures TrimStart(s) == s
  {
  }

  /** The value of `c` as a digit in the bases up to 36 (`0`-`9`, then the
      Latin letters in either case), if it is one. */
  function DigitValue(c: char): Option<nat> {
    if '0' <= c <= '9' then Some(c as int - '0' as int)
    else if 'a' <= c <= 'z' then Some(c as int - 'a' as int + 10)
    else if 'A' <= c <= 'Z' then Some(c as int - 'A' as int + 10)
    else None
  }

  predicate IsDigit(c: char, radix: nat) {
    DigitValue(c).Some? && DigitValue(c).value < radix
  }

  predicate AllDigits(z: string, radix: nat) {
    forall i :: 0 <= i < |z| ==> IsDigit(z[i], radix)
  }

  /** The longest prefix of `s` made of digits of base `radix`: the part
      `parseInt` reads before it stops at the first other character. */
  function DigitPrefix(s: string, radix: nat): (z: string)
    ensures |z| <= |s| && z == s[..|z|]
    ensures AllDigits(z, radix)
    ensures |z| == |s| || !IsDigit(s[|z|], radix)
  {
    if |s| == 0 || !IsDigit(s[0], radix) then [] else [s[0]] + DigitPrefix(s[1..], radix)
  }

  /** The mathematical value of the digit string `z` read in base `radix`. */
  function DigitsValue(z: string, radix: nat): nat
    requires AllDigits(z, radix)
  {
    if |z| == 0 then 0
    else DigitsValue(z[..|z| - 1], radix) * radix + DigitValue(z[|z| - 1]).value
  }

  /** The digits after the sign: a "0x" or "0X" prefix selects base 16,
      otherwise base 10; None when no digit follows. */
  function ParseUnsigned(u: string): Option<nat> {
    var hex := |u| >= 2 && u[0] == '0' && (u[1] == 'x' || u[1] == 'X');
    var radix := if hex then 16 else 10;
    var z := DigitPrefix(if hex then u[2..] else u, radix);
    if z == [] then None else Some(DigitsValue(z, radix))
  }

  /** `parseInt` past the leading white space: an optional sign, then the
      digits. A number is read only from text that starts with a sign or
      a digit, and it is negative only after a minus sign. */
  function ParseSigned(s: string): (r: Option<int>)
    ensures r.Some? ==> |s| > 0 && (s[0] == '+' || s[0] == '-' || IsDigit(s[0], 10))
    ensures r.Some? && r.value < 0 ==> s[0] == '-'
  {
    var unsigned := if |s| > 0 && (s[0] == '+' || s[0] == '-') then s[1..] else s;
    match ParseUnsigned(unsigned)
    case None => None
    case Some(v) => if |s| > 0 && s[0] == '-' then Some(-(v as int)) else Some(v)
  }

  /** `parseInt(input)` with no radix argument. `None` is NaN. A parsed
      "-0" gives 0 here, standing for JavaScript's -0; every caller in the
      model treats the two alike, since both are falsy. */
  function ParseInt(input: string): (r: Option<int>)
    ensures r.Some? ==> var s := TrimStart(input);
      |s| > 0 && (s[0] == '+' || s[0] == '-' || IsDigit(s[0], 10))
    ensures r.Some? && r.value < 0 ==> TrimStart(input)[0] == '-'
  {
    ParseSigned(TrimStart(input))
  }

  /** The character of the decimal digit `d`. */
  function DecimalChar(d: nat): (c: char)
    requires d < 10
    ensures IsDigit(c, 10) && DigitValue(c) == Some(d)
  {
    ('0' as int + d) as char
  }

  /** Number::toString of a non-negative integer: its decimal digits, with
      no leading zero. */
  function NatToString(n: nat): (s: string)
    ensures |s| >= 1 && AllDigits(s, 10)
    ensures DigitsValue(s, 10) == n
    ensures s[0] == '0' ==> n == 0 && s == "0"
  {
    if n < 10 then [DecimalChar(n)]
    else
      var s := NatToString(n / 10) + [DecimalChar(n % 10)];
      assert s[..|s| - 1] == NatToString(n / 10);
      s
  }

  /** Number::toString of an integer: a minus sign before the digits of a
      negative value. */
  function IntToString(n: int): (s: string)
    ensures |s| >= 1
    ensures s[0] == '-' <==> n < 0
    ensures n >= 0 ==> AllDigits(s, 10) && DigitsValue(s, 10) == n
    ensures n < 0 ==> AllDigits(s[1..], 10) && DigitsValue(s[1..], 10) == -n
  {
    if n < 0 then "-" + NatToString(-n) else NatToString(n)
  }

  /** `parseInt` reads a digit string up to the first non-digit. */
  lemma {:induction false} DigitPrefixOfDigits(a: string, b: string, radix: nat)
    requires AllDigits(a, radix)
    requires b == [] || !IsDigit(b[0], radix)
    ensures DigitPrefix(a + b, radix) == a
  {
    if |a| == 0 {
      assert a + b == b;
    } else {
      assert (a + b)[1..] == a[1..] + b;
      DigitPrefixOfDigits(a[1..], b, radix);
    }
  }

  /** `parseInt` inverts Number::toString on integers, and it ignores what
      follows the number as long as that does not continue it: a further
      decimal digit would, and so would an `x` after a lone `0`, which
      turns "0x..." into a hexadecimal literal. */
  lemma ParseIntOfNumberText(n: int, rest: string)
    requires rest == [] || !IsDigit(rest[0], 10)
    requires n == 0 && rest != [] ==> rest[0] != 'x' && rest[0] != 'X'
    ensures ParseInt(IntToString(n) + rest) == Some(n)
  {
    var input := IntToString(n) + rest;
    if n < 0 {
      var text := IntToString(n);
      assert text == "-" + NatToString(-n);
      ParseIntOfNegative(-n, rest, text, input);
    } else {
      var text := IntToString(n);
      assert text == NatToString(n);
      ParseIntOfNat(n, rest, input);
    }
  }

  lemma ParseIntOfNat(m: nat, rest: string, input: string)
    requires rest == [] || !IsDigit(rest[0], 10)
    requires m == 0 && rest != [] ==> rest[0] != 'x' && rest[0] != 'X'
    requires input == NatToString(m) + rest
    ensures ParseInt(input) == Some(m)
  {
    ParseUnsignedOfDigits(m, rest);
    assert input[0] == NatToString(m)[0];
    ParseIntUnsigned(input, m);
  }

  lemma ParseIntOfNegative(m: nat, rest: string, text: string, input: string)
    requires m > 0
    requires rest == [] || !IsDigit(rest[0], 10)
    requires text == "-" + NatToString(m) && input == text + rest
    ensures ParseInt(input) == Some(-(m as int))
  {
    var u := NatToString(m) + rest;
    assert input[0] == '-';
    assert input[1..] == u by {
      assert forall i :: 0 <= i < |u| ==> input[1..][i] == u[i];
    }
    ParseUnsignedOfDigits(m, rest);
    SignedParse(input, m);
  }

  /** Text that starts with a digit is read by `parseInt` as it stands. */
  lemma ParseIntUnsigned(input: string, v: nat)
    requires |input| > 0 && IsDigit(input[0], 10)
    requires ParseUnsigned(input) == Some(v)
    ensures ParseInt(input) == Some(v)
  {
    NumberCharNotSpace(input[0]);
    TrimStartKeeps(input);
  }

  lemma NumberCharNotSpace(c: char)
    requires c == '-' || c == '+' || IsDigit(c, 10)
    ensures !IsStrWhiteSpace(c)
  {
  }

  lemma ParseUnsignedOfDigits(m: nat, rest: string)
    requires rest == [] || !IsDigit(rest[0], 10)
    requires m == 0 && rest != [] ==> rest[0] != 'x' && rest[0] != 'X'
    ensures ParseUnsigned(NatToString(m) + rest) == Some(m)
  {
    var digits := NatToString(m);
    var u := digits + rest;
    assert u[0] == digits[0];
    assert |u| >= 2 ==> u[1] == if |digits| >= 2 then digits[1] else rest[0];
    DigitPrefixOfDigits(digits, rest, 10);
  }

  /** A run of decimal digits is read in base 10 up to the first
      non-digit, unless it is a lone `0` followed by an `x`. */
  lemma UnsignedOfRun(z: string, rest: string, u: string)
    requires |z| > 0 && AllDigits(z, 10)
    requires rest == [] || !IsDigit(rest[0], 10)
    requires z == "0" && rest != [] ==> rest[0] != 'x' && rest[0] != 'X'
    requires u == z + rest
    ensures |u| > 0 && IsDigit(u[0], 10)
    ensures ParseUnsigned(u) == Some(DigitsValue(z, 10))
  {
    assert u[0] == z[0];
    if |u| >= 2 && u[0] == '0' {
      if |z| >= 2 {
        assert u[1] == z[1];
      } else {
        assert z == "0" && u[1] == rest[0];
      }
    }
    DigitPrefixOfDigits(z, rest, 10);
  }

  /** `parseInt` skips leading white space: it reads what follows the
      run as if the run were not there. */
  lemma ParseIntSkipsSpace(w: string, t: string, input: string)
    requires forall i :: 0 <= i < |w| ==> IsStrWhiteSpace(w[i])
    requires t == [] || !IsStrWhiteSpace(t[0])
    requires input == w + t
    ensures ParseInt(input) == ParseInt(t)
  {
    TrimStartSkips(w, t);
    if t != [] {
      TrimStartKeeps(t);
    }
  }

  /** `parseInt` on white space, an optional sign and a run of decimal
      digits: the digits' value, negated after a minus sign. Whatever
      follows is ignored unless it continues the number. */
  lemma ParseIntOfDigitRun(w: string, sign: string, z: string, rest: string, input: string)
    requires forall i :: 0 <= i < |w| ==> IsStrWhiteSpace(w[i])
    requires sign == "" || sign == "+" || sign == "-"
    requires |z| > 0 && AllDigits(z, 10)
    requires rest == [] || !IsDigit(rest[0], 10)
    requires z == "0" && rest != [] ==> rest[0] != 'x' && rest[0] != 'X'
    requires input == w + (sign + (z + rest))
    ensures ParseInt(input) == Some(Signed(sign, DigitsValue(z, 10)))
  {
    var u := z + rest;
    var t := sign + u;
    var v := DigitsValue(z, 10);
    UnsignedOfRun(z, rest, u);
    SignThenRun(sign, u, t, v);
    ParseIntSkipsSpace(w, t, input);
  }

  /** The value `v` after the sign `sign`. */
  function Signed(sign: string, v: nat): int {
    if sign == "-" then -(v as int) else v
  }

  /** The same without the white space in front, for any unsigned text
      that starts with a digit. */
  lemma SignThenRun(sign: string, u: string, t: string, v: nat)
    requires sign == "" || sign == "+" || sign == "-"
    requires |u| > 0 && IsDigit(u[0], 10) && ParseUnsigned(u) == Some(v)
    requires t == sign + u
    ensures |t| > 0 && !IsStrWhiteSpace(t[0])
    ensures ParseInt(t) == Some(Signed(sign, v))
  {
    if sign == "" {
      NoSignBeforeRun(u, t, v);
    } else {
      SignBeforeRun(sign, u, t, v);
    }
  }

  /** Unsigned digits alone: their value. */
  lemma NoSignBeforeRun(u: string, t: string, v: nat)
    requires t == "" + u && |u| > 0 && IsDigit(u[0], 10) && ParseUnsigned(u) == Some(v)
    ensures |t| > 0 && !IsStrWhiteSpace(t[0])
    ensures ParseInt(t) == Some(v)
  {
    assert t == u;
    NumberCharNotSpace(t[0]);
    ParseIntUnsigned(t, v);
  }

  /** A sign before unsigned digits: the value, negated after `-`. */
  lemma SignBeforeRun(sign: string, u: string, t: string, v: nat)
    requires sign == "+" || sign == "-"
    requires t == sign + u && ParseUnsigned(u) == Some(v)
    ensures |t| > 0 && !IsStrWhiteSpace(t[0])
    ensures ParseInt(t) == Some(Signed(sign, v))
  {
    assert t[0] == sign[0];
    assert t[1..] == u;
    NumberCharNotSpace(t[0]);
    SignedParse(t, v);
  }

  /** The step after trimming, for text that starts with a sign. */
  lemma SignedParse(t: string, v: nat)
    requires |t| > 0 && (t[0] == '+' || t[0] == '-') && ParseUnsigned(t[1..]) == Some(v)
    ensures ParseInt(t) == Some(if t[0] == '-' then -(v as int) else v)
  {
    NumberCharNotSpace(t[0]);
    TrimStartKeeps(t);
  }

  /** Without a decimal digit after the white space and the optional sign,
      `parseInt` gives NaN: "", " ", "+", "-abc" and "null" alike. */
  lemma ParseIntWithoutDigits(w: string, sign: string, rest: string, input: string)
    requires forall i :: 0 <= i < |w| ==> IsStrWhiteSpace(w[i])
    requires sign == "" || sign == "+" || sign == "-"
    requires rest == [] || !IsDigit(rest[0], 10)
    requires sign == "" && rest != [] ==>
      !IsStrWhiteSpace(rest[0]) && rest[0] != '+' && rest[0] != '-'
    requires input == w + (sign + rest)
    ensures ParseInt(input) == None
  {
    var t := sign + rest;
    if sign == "" {
      assert t == rest;
    } else {
      assert t[0] == sign[0];
      NumberCharNotSpace(t[0]);
      assert t[1..] == rest;
    }
    assert DigitPrefix(rest, 10) == [];
    assert ParseUnsigned(rest) == None;
    if t != [] {
      TrimStartKeeps(t);
    }
    assert ParseInt(t) == None;
    ParseIntSkipsSpace(w, t, input);
  }

  /** String.prototype.padStart(maxLength, fill) for a one-character fill. */
  function PadStart(s: string, maxLength: nat, fill: char): (r: string)
    ensures |s| >= maxLength ==> r == s
    ensures |s| < maxLength ==> |r| == maxLength
    ensures r[|r| - |s|..] == s
    ensures forall i :: 0 <= i < |r| - |s| ==> r[i] == fill
  {
    if |s| >= maxLength then s else seq(maxLength - |s|, _ => fill) + s
  }

  /** String.prototype.includes(search): a left-to-right scan. */
  function Includes(s: string, search: string): (r: bool)
    ensures r ==> |search| <= |s|
    ensures search == [] ==> r
    decreases |s|
  {
    if |search| > |s| then false
    else if s[..|search|] == search then true
    else Includes(s[1..], search)
  }

  predicate OccursAt(s: string, search: string, i: int) {
    0 <= i && i + |search| <= |s| && s[i..i + |search|] == search
  }

  /** The scan finds `search` exactly when it occurs at some position. */
  lemma {:induction false} IncludesIffOccurs(s: string, search: string)
    ensures Includes(s, search) <==> exists i :: OccursAt(s, search, i)
    decreases |s|
  {
    if |search| > |s| {
    } else if s[..|search|] == search {
      assert OccursAt(s, search, 0);
    } else {
      IncludesIffOccurs(s[1..], search);
      if i :| OccursAt(s, search, i) {
        assert i != 0;
        assert s[1..][i - 1..i - 1 + |search|] == s[i..i + |search|];
        assert OccursAt(s[1..], search, i - 1);
      }
      if j :| OccursAt(s[1..], search, j) {
        assert s[1..][j..j + |search|] == s[j + 1..j + 1 + |search|];
        assert OccursAt(s, search, j + 1);
      }
    }
  }
}

=== FILE: ntp_clock.dfy ===
/** The clock engine of scripts.js, class `NTPClock`: the time-zone offset
    read in the constructor, `saveOffsetIfNotSet`, the rendering and
    re-arm delay of `updateTime`, and the burn-in shift. The wall clock,
    the timers and `Math.random` are the caller's: each operation takes
    the instant or the random draw it would have read. */
module NtpClock {
  import opened Wrappers
  import opened JsText
  import opened TimeValue
  import opened Storage

  /** UTC+8, the offset used when none is stored. */
  const DefaultOffset: int := 8 * 3600 * 1000
  /** Largest burn-in displacement, in viewport units. */
  const BurnInDistance: real := 1.5
  /** The separator between the fields: U+FF1A FULLWIDTH COLON. */
  const FullWidthColon: char := '\U{FF1A}'

  // ---------------------------------------------------------------------
  // Time-zone offset

  /** The constructor's `parseInt(localStorage.getItem('tz_offset')) ||
      DEFAULT_OFFSET`. NaN and 0 are both falsy, so each of them gives
      the default. */
  function LoadOffset(store: Store): (offset: int)
    ensures offset != 0
    ensures offset == DefaultOffset
            || (TzOffsetKey in store && ParseInt(store[TzOffsetKey]) == Some(offset))
    ensures TzOffsetKey in store && ParseInt(store[TzOffsetKey]).Some?
            && ParseInt(store[TzOffsetKey]).value != 0
            ==> offset == ParseInt(store[TzOffsetKey]).value
  {
    NullIsNaN();
    match ParseInt(NullableToString(GetItem(store, TzOffsetKey)))
    case Some(n) => if n != 0 then n else DefaultOffset
    case None => DefaultOffset
  }

  /** `saveOffsetIfNotSet`: stores the default offset, as the decimal text
      of the number, when the stored value is missing or empty. */
  function SaveOffsetIfNotSet(store: Store): (r: Store)
    ensures TzOffsetKey in r && r[TzOffsetKey] != ""
    ensures Truthy(GetItem(store, TzOffsetKey)) ==> r == store
    ensures !Truthy(GetItem(store, TzOffsetKey)) ==> r[TzOffsetKey] == "28800000"
    ensures forall k :: k != TzOffsetKey ==> GetItem(r, k) == GetItem(store, k)
  {
    if Truthy(GetItem(store, TzOffsetKey)) then store
    else
      var text := IntToString(DefaultOffset);
      DefaultOffsetText();
      store[TzOffsetKey := text]
  }

  lemma DefaultOffsetText()
    ensures IntToString(DefaultOffset) == "28800000"
  {
    assert NatToString(2) == "2";
    assert NatToString(28) == NatToString(2) + [DecimalChar(8)] == "28";
    assert NatToString(288) == NatToString(28) + [DecimalChar(8)] == "288";
    assert NatToString(2880) == NatToString(288) + [DecimalChar(0)] == "2880";
    assert NatToString(28800) == NatToString(2880) + [DecimalChar(0)] == "28800";
    assert NatToString(288000) == NatToString(28800) + [DecimalChar(0)] == "288000";
    assert NatToString(2880000) == NatToString(288000) + [DecimalChar(0)] == "2880000";
    assert NatToString(28800000) == NatToString(2880000) + [DecimalChar(0)] == "28800000";
  }

  /** A missing value, an empty one, text that does not start with a
      number, or a number that is zero all give the default offset. */
  lemma OffsetFallsBack(store: Store)
    requires || TzOffsetKey !in store
             || ParseInt(store[TzOffsetKey]) == None
             || ParseInt(store[TzOffsetKey]) == Some(0)
    ensures LoadOffset(store) == DefaultOffset
  {
    var raw := NullableToString(GetItem(store, TzOffsetKey));
    if TzOffsetKey !in store {
      assert raw == "null";
      NullIsNaN();
    } else {
      assert raw == store[TzOffsetKey];
    }
  }

  /** `parseInt(null)` reads the text "null", which is NaN. */
  lemma NullIsNaN()
    ensures ParseInt("null") == None
  {
    TrimStartKeeps("null");
    assert DigitPrefix("null", 10) == [];
  }

  /** Text that is not a number gives the default. */
  lemma NonNumericOffsetExample(store: Store)
    requires TzOffsetKey in store && store[TzOffsetKey] == "not-a-number"
    ensures LoadOffset(store) == DefaultOffset
  {
    var s := store[TzOffsetKey];
    assert TrimStart(s) == s;
    assert DigitPrefix(s, 10) == [];
  }

  /** The offset differs from the default exactly when the stored text
      parses to a number that is neither zero nor the default itself. */
  lemma OffsetIsParsedValue(store: Store)
    ensures LoadOffset(store) != DefaultOffset <==>
      && TzOffsetKey in store && ParseInt(store[TzOffsetKey]).Some?
      && ParseInt(store[TzOffsetKey]).value != 0
      && ParseInt(store[TzOffsetKey]).value != DefaultOffset
  {
    if TzOffsetKey !in store {
      OffsetFallsBack(store);
    }
  }

  /** A nonzero offset written as its decimal text is read back exactly. */
  lemma OffsetRoundTrip(store: Store, n: int)
    requires n != 0
    ensures LoadOffset(store[TzOffsetKey := IntToString(n)]) == n
  {
    ParseIntOfNumberText(n, []);
    assert IntToString(n) + [] == IntToString(n);
  }

  /** Text after the number is ignored as long as it does not continue
      it: "3600000 " and "3600000abc" both give 3600000. */
  lemma OffsetIgnoresTrailingText(store: Store, n: int, rest: string)
    requires n != 0
    requires rest == [] || !IsDigit(rest[0], 10)
    ensures LoadOffset(store[TzOffsetKey := IntToString(n) + rest]) == n
  {
    ParseIntOfNumberText(n, rest);
  }

  /** Saving the default is idempotent. */
  lemma SaveOffsetIdempotent(store: Store)
    ensures SaveOffsetIfNotSet(SaveOffsetIfNotSet(store)) == SaveOffsetIfNotSet(store)
  {
  }

  /** Start-up: the constructor reads the offset and `init` then saves
      the default if none is set. */
  function Start(store: Store): (Store, int) {
    (SaveOffsetIfNotSet(store), LoadOffset(store))
  }

  /** The constructor reads the offset before `init` saves the default,
      yet reading it after the save gives the same value: the saved text
      parses back to the default. */
  lemma StartOffsetSurvivesSave(store: Store)
    ensures LoadOffset(Start(store).0) == Start(store).1
  {
    var saved := SaveOffsetIfNotSet(store);
    if !Truthy(GetItem(store, TzOffsetKey)) {
      OffsetRoundTrip(store, DefaultOffset);
      if TzOffsetKey !in store {
        OffsetFallsBack(store);
      } else {
        assert store[TzOffsetKey] == "";
        assert ParseInt("") == None;
        OffsetFallsBack(store);
      }
    }
  }

  // ---------------------------------------------------------------------
  // updateTime

  /** JavaScript's `%` on a positive divisor: the remainder of truncating
      division, which takes the sign of the dividend. */
  function JsRemainder(n: int, d: int): (r: int)
    requires d > 0
    ensures n >= 0 ==> 0 <= r < d
    ensures n < 0 ==> -d < r <= 0
    ensures (n - r) % d == 0
  {
    if n >= 0 then
      DivUnique(n - n % d, d, n / d, 0);
      n % d
    else
      DivUnique(n + (-n) % d, d, -((-n) / d), 0);
      -((-n) % d)
  }

  /** Number::toString of a getter's result: "NaN" for NaN. */
  function NumberText(v: Option<int>): string {
    match v
    case None => "NaN"
    case Some(n) => IntToString(n)
  }

  /** `x.toString().padStart(2, '0')`. */
  function Field(v: Option<int>): string {
    PadStart(NumberText(v), 2, '0')
  }

  /** The two decimal digits of `n`, a zero first below ten. */
  function TwoDigits(n: int): (f: string)
    requires 0 <= n < 100
    ensures |f| == 2 && IsDigit(f[0], 10) && IsDigit(f[1], 10)
    ensures DigitValue(f[0]) == Some(n / 10) && DigitValue(f[1]) == Some(n % 10)
  {
    [DecimalChar(n / 10), DecimalChar(n % 10)]
  }

  /** `text` is the face `HH：MM：SS` of `now`: eight characters, full-width
      colons at 2 and 5, and each field the two decimal digits, zero first
      when needed, of the hours, minutes and seconds, so that each field
      parses back to its value. */
  predicate ShowsClock(text: string, now: int)
  {
    var h, m, sec := HourFromTime(now), MinFromTime(now), SecFromTime(now);
    && |text| == 8
    && text[2] == FullWidthColon && text[5] == FullWidthColon
    && text[0..2] == TwoDigits(h)
    && text[3..5] == TwoDigits(m)
    && text[6..8] == TwoDigits(sec)
    && ParseInt(text[0..2]) == Some(h)
    && ParseInt(text[3..5]) == Some(m)
    && ParseInt(text[6..8]) == Some(sec)
  }

  /** The text `updateTime` writes for the adjusted instant `now`: the UTC
      hour, minute and second of `new Date(now)`. For a valid Date it is
      eight characters, each field two digits that parse back to its
      value; beyond the range of a Date every getter, and so every field,
      is NaN. */
  function Render(now: int): (text: string)
    ensures -MaxTimeMagnitude <= now <= MaxTimeMagnitude ==> ShowsClock(text, now)
    ensures -MaxTimeMagnitude <= now <= MaxTimeMagnitude ==>
      && |text| == 8
      && text[0..2] == Field(Some(HourFromTime(now)))
      && text[3..5] == Field(Some(MinFromTime(now)))
      && text[6..8] == Field(Some(SecFromTime(now)))
    ensures now < -MaxTimeMagnitude || MaxTimeMagnitude < now ==>
      text == "NaN" + [FullWidthColon] + "NaN" + [FullWidthColon] + "NaN"
  {
    var tv := TimeClip(now);
    var h, m, sec := Field(UtcHours(tv)), Field(UtcMinutes(tv)), Field(UtcSeconds(tv));
    if tv.Some? then
      TwoDigitField(HourFromTime(now));
      TwoDigitField(MinFromTime(now));
      TwoDigitField(SecFromTime(now));
      Layout(h, m, sec);
      h + [FullWidthColon] + m + [FullWidthColon] + sec
    else
      h + [FullWidthColon] + m + [FullWidthColon] + sec
  }

  /** The delay after which `updateTime` runs again: `1000 - now % 1000`.
      It always ends on a whole second: the next one from the epoch on and
      on whole seconds, the one after next from any other instant before
      the epoch, where the truncating `%` is negative. */
  /** A delay `d` from `now` is between 1 ms and 2 s and ends on a whole
      second, the next one when `now` is non-negative. */
  predicate ArmsNextRun(now: int, d: int)
  {
    && 1 <= d < 2000
    && (now + d) % 1000 == 0
    && (now >= 0 ==> now + d == (now / 1000 + 1) * 1000)
  }

  function ReArmDelay(now: int): (d: int)
    ensures ArmsNextRun(now, d)
    ensures 1 <= d < 2000
    ensures (now + d) % 1000 == 0
    ensures now >= 0 || now % 1000 == 0 ==> now + d == (now / 1000 + 1) * 1000
    ensures now < 0 && now % 1000 != 0 ==> now + d == (now / 1000 + 2) * 1000
  {
    var q, r := now / 1000, now % 1000;
    if now >= 0 then
      DivUnique(now + 1000 - r, 1000, q + 1, 0);
      1000 - JsRemainder(now, 1000)
    else if r == 0 then
      DivUnique(-now, 1000, -q, 0);
      DivUnique(now + 1000, 1000, q + 1, 0);
      1000 - JsRemainder(now, 1000)
    else
      DivUnique(-now, 1000, -q - 1, 1000 - r);
      DivUnique((q + 2) * 1000, 1000, q + 2, 0);
      1000 - JsRemainder(now, 1000)
  }

  /** What one run of `updateTime` produces: the text it writes and the
      delay before it runs again. */
  datatype TickResult = TickResult(text: string, delay: int)

  /** `updateTime` at the adjusted instant `now`, the wall clock plus the
      always-zero NTP delta plus the offset: the readable UTC fields of the
      instant, and a delay that ends on a whole second, the next one from
      a non-negative instant. */
  function Tick(now: int): (r: TickResult)
    ensures -MaxTimeMagnitude <= now <= MaxTimeMagnitude ==> ShowsClock(r.text, now)
    ensures now < -MaxTimeMagnitude || MaxTimeMagnitude < now ==>
      r.text == "NaN" + [FullWidthColon] + "NaN" + [FullWidthColon] + "NaN"
    ensures ArmsNextRun(now, r.delay)
  {
    TickResult(Render(now), ReArmDelay(now))
  }

  /** The field of a value below 10 is a zero and its digit. */
  lemma OneDigitField(n: int)
    requires 0 <= n < 10
    ensures Field(Some(n)) == TwoDigits(n)
  {
    assert NatToString(n) == [DecimalChar(n)];
    assert n / 10 == 0 && n % 10 == n;
  }

  /** The field of a value from 10 to 99 is its two digits. */
  lemma TwoDigitNumber(n: int)
    requires 10 <= n < 100
    ensures Field(Some(n)) == TwoDigits(n)
  {
    assert NatToString(n / 10) == [DecimalChar(n / 10)];
    assert NatToString(n) == NatToString(n / 10) + [DecimalChar(n % 10)];
  }

  /** `parseInt` reads two decimal digits as their value. */
  lemma ParseTwoDigits(a: nat, b: nat, f: string)
    requires a < 10 && b < 10 && f == [DecimalChar(a), DecimalChar(b)]
    ensures ParseInt(f) == Some(10 * a + b)
  {
    TrimStartKeeps(f);
    assert f[1] != 'x' && f[1] != 'X';
    DigitPrefixOfDigits(f, [], 10);
    assert f + [] == f;
    assert f[..1] == [DecimalChar(a)];
    assert [DecimalChar(a)][..0] == [];
    assert DigitsValue([DecimalChar(a)], 10) == a;
    assert DigitsValue(f, 10) == 10 * a + b;
    assert ParseUnsigned(f) == Some(10 * a + b);
  }

  /** A field below 100 is two decimal digits, and `parseInt` reads
      them back as the value. */
  lemma TwoDigitField(n: int)
    requires 0 <= n < 100
    ensures Field(Some(n)) == TwoDigits(n)
    ensures ParseInt(Field(Some(n))) == Some(n)
  {
    var hi, lo := n / 10, n % 10;
    var f := Field(Some(n));
    if n < 10 {
      OneDigitField(n);
    } else {
      TwoDigitNumber(n);
    }
    assert f == [DecimalChar(hi), DecimalChar(lo)];
    ParseTwoDigits(hi, lo, f);
    assert 10 * hi + lo == n;
  }

  /** Where the three fields and the two colons sit in the text. */
  lemma Layout(h: string, m: string, sec: string)
    requires |h| == 2 && |m| == 2 && |sec| == 2
    ensures var text := h + [FullWidthColon] + m + [FullWidthColon] + sec;
      && |text| == 8
      && text[2] == FullWidthColon && text[5] == FullWidthColon
      && text[0..2] == h && text[3..5] == m && text[6..8] == sec
  {
  }

  /** 3661000 ms after midnight is 01:01:01, and the next run is a whole
      second away. */
  lemma TickExample(t: int)
    requires t == 3661000
    ensures Tick(t).text == "01" + [FullWidthColon] + "01" + [FullWidthColon] + "01"
    ensures Tick(t).delay == 1000
  {
    assert HourFromTime(t) == 1 && MinFromTime(t) == 1 && SecFromTime(t) == 1;
    var tv := TimeClip(t);
    assert tv == Some(t);
    assert UtcHours(tv) == Some(1) && UtcMinutes(tv) == Some(1) && UtcSeconds(tv) == Some(1);
    var one := Field(Some(1));
    TwoDigitField(1);
    assert one == "01";
    assert Render(t) == one + [FullWidthColon] + one + [FullWidthColon] + one;
    assert ReArmDelay(t) == 1000;
    assert Tick(t) == TickResult(Render(t), ReArmDelay(t));
  }

  /** Arriving at the next whole second, the face has moved on by exactly
      one second. */
  lemma ReArmDelayAdvancesFace(now: int)
    requires now >= 0
    ensures FaceOf(now + ReArmDelay(now)) == NextSecond(FaceOf(now))
    ensures SecFromTime(now + ReArmDelay(now)) == (SecFromTime(now) + 1) % 60
  {
    NextWholeSecondAdvancesFace(now);
  }

  /** The instant of the run of `updateTime` that follows one at `now`
      after |lat| re-arms, the i-th starting lat[i] milliseconds after the
      delay it asked for: the timer and the animation frame that
      `updateTime` waits for both start late. */
  function Firing(now: int, lat: seq<nat>): int
    decreases |lat|
  {
    if |lat| == 0 then now
    else
      var prev := Firing(now, lat[..|lat| - 1]);
      prev + ReArmDelay(prev) + lat[|lat| - 1]
  }

  /** No drift accumulates: as long as every run starts less than a second
      late, the k-th run falls within the k-th whole second after `now`,
      and its seconds field is k more, modulo 60. */
  lemma {:induction false} TickScheduleNoDrift(now: int, lat: seq<nat>)
    requires now >= 0
    requires forall i :: 0 <= i < |lat| ==> lat[i] < 1000
    ensures (now / 1000 + |lat|) * 1000 <= Firing(now, lat) < (now / 1000 + |lat|) * 1000 + 1000
    ensures SecFromTime(Firing(now, lat)) == (SecFromTime(now) + |lat|) % 60
    decreases |lat|
  {
    var k, q := |lat|, now / 1000;
    if k == 0 {
      DivUnique(SecFromTime(now), 60, 0, SecFromTime(now));
    } else {
      var pre := lat[..k - 1];
      forall i | 0 <= i < |pre|
        ensures pre[i] < 1000
      {
        assert pre[i] == lat[i];
      }
      TickScheduleNoDrift(now, pre);
      var prev := Firing(now, pre);
      LateRunStep(prev, q + k - 1, lat[k - 1], Firing(now, lat));
      SameSuccessor(q + k - 1, SecFromTime(now) + k - 1, 60);
    }
  }

  /** A run within whole second w that re-arms and then starts `late`
      milliseconds after its delay falls within whole second w + 1. */
  lemma LateRunStep(prev: int, w: int, late: nat, f: int)
    requires w >= 0 && late < 1000
    requires w * 1000 <= prev < w * 1000 + 1000
    requires f == prev + ReArmDelay(prev) + late
    ensures (w + 1) * 1000 <= f < (w + 1) * 1000 + 1000
    ensures SecFromTime(prev) == w % 60 && SecFromTime(f) == (w + 1) % 60
  {
    DivUnique(prev, 1000, w, prev - w * 1000);
    assert f == (w + 1) * 1000 + late;
    DivUnique(f, 1000, w + 1, late);
  }

  /** Before the epoch the delay overshoots: for an adjusted instant that
      is negative and not on a whole second, `now % 1000` is negative, so
      the next run lands two whole seconds on and the seconds field skips
      a value. */
  lemma ReArmDelaySkipsASecondBeforeEpoch(now: int)
    requires now < 0 && now % 1000 != 0
    ensures 1000 < ReArmDelay(now) < 2000
    ensures now + ReArmDelay(now) == (now / 1000 + 2) * 1000
    ensures SecFromTime(now + ReArmDelay(now)) == (SecFromTime(now) + 2) % 60
  {
    var q := now / 1000;
    var t2 := now + ReArmDelay(now);
    DivUnique(t2, 1000, q + 2, 0);
    assert SecFromTime(t2) == (q + 2) % 60;
    ModAddTwo(q, 60);
  }


  /** The delay that reaches the next whole second from any instant,
      before the epoch too: it reads the remainder as non-negative. */
  function AlignedDelay(now: int): (d: int)
    ensures 1 <= d <= 1000
    ensures (now + d) % 1000 == 0
    ensures now + d == (now / 1000 + 1) * 1000
  {
    DivUnique((now / 1000 + 1) * 1000, 1000, now / 1000 + 1, 0);
    1000 - now % 1000
  }

  /** With the aligned delay every run moves the face on by one second. */
  lemma AlignedDelayAdvancesFace(now: int)
    ensures FaceOf(now + AlignedDelay(now)) == NextSecond(FaceOf(now))
  {
    NextWholeSecondAdvancesFace(now);
  }

  /** The source's delay is the aligned one exactly on the instants from
      the epoch on and on whole seconds before it. */
  lemma ReArmDelayIsAligned(now: int)
    ensures ReArmDelay(now) == AlignedDelay(now) <==> now >= 0 || now % 1000 == 0
  {
    if now < 0 {
      var q, r := now / 1000, now % 1000;
      if r == 0 {
        DivUnique(-now, 1000, -q, 0);
      } else {
        DivUnique(-now, 1000, -q - 1, 1000 - r);
      }
    }
  }

  // ---------------------------------------------------------------------
  // applyBurnInShift

  /** One axis of the shift for a draw `r` of `Math.random()`. */
  function BurnInComponent(r: real): (d: real)
    requires 0.0 <= r < 1.0
    ensures -BurnInDistance <= d < BurnInDistance
  {
    (r * 2.0 - 1.0) * BurnInDistance
  }

  /** The displacement of the readout, in viewport width and height units. */
  datatype Shift = Shift(dx: real, dy: real)

  /** `applyBurnInShift` for the two draws it makes. */
  function BurnInShift(rx: real, ry: real): (s: Shift)
    requires 0.0 <= rx < 1.0 && 0.0 <= ry < 1.0
    ensures -BurnInDistance <= s.dx < BurnInDistance
    ensures -BurnInDistance <= s.dy < BurnInDistance
  {
    Shift(BurnInComponent(rx), BurnInComponent(ry))
  }

  /** The draw that produces a given displacement: every value of
      [-1.5, 1.5) is reached, each by exactly one draw. */
  function BurnInDraw(d: real): (r: real)
    requires -BurnInDistance <= d < BurnInDistance
    ensures 0.0 <= r < 1.0
    ensures BurnInComponent(r) == d
    ensures forall r' :: 0.0 <= r' < 1.0 && BurnInComponent(r') == d ==> r' == r
  {
    (d / BurnInDistance + 1.0) / 2.0
  }
}

=== FILE: preferences.dfy ===
/** The display preferences of scripts.js, set up in its DOMContentLoaded
    handler: the colour and font restored from storage at load, the colour
    picker's `input` handler, the font picker's `change` handler and the
    reset button's `click` handler. The time element's style and the two
    pickers are a value; each handler maps the store and that value to
    their new versions. */
module Preferences {
  import opened Wrappers
  import opened JsText
  import opened Storage

  const DefaultColor: string := "#FF8C00"
  const DefaultFont: string := "'Major Mono Display', monospace"
  /** The glow the reset button writes: an orange of fading opacity, not
      the glow the colour handler derives from a colour. */
  const ResetShadow: string :=
    "0 0 5px rgba(255, 140, 0, 0.8), 0 0 15px rgba(255, 140, 0, 0.6), 0 0 30px rgba(255, 140, 0, 0.4)"
  /** The wide font that gets a smaller size. */
  const WideFont: string := "Sixtyfour"
  const SmallSize: string := "10vw"
  const LargeSize: string := "15vw"

  /** The inline style properties of the time element that the handlers set. */
  datatype Style = Style(color: string, textShadow: string, fontFamily: string, fontSize: string)

  /** The time element's style together with the values the colour and
      font pickers show. */
  datatype Page = Page(style: Style, colorPicker: string, fontPicker: string)

  /** The three-layer glow derived from a colour, each layer in that
      colour: the first layer's colour follows the eight characters
      "0 0 5px ", and the last layer ends the glow. */
  function Glow(c: string): (g: string)
    ensures |g| == 30 + 3 * |c|
    ensures g[..8] == "0 0 5px "
    ensures g[8..8 + |c|] == c && g[19 + |c|..19 + 2 * |c|] == c && g[|g| - |c|..] == c
  {
    "0 0 5px " + c + ", 0 0 15px " + c + ", 0 0 30px " + c
  }

  /** The font size the font handler picks: the small size exactly when the
      font string contains "Sixtyfour" somewhere. */
  function FontSizeFor(font: string): (size: string)
    ensures size == SmallSize || size == LargeSize
    ensures size == SmallSize <==> exists i :: OccursAt(font, WideFont, i)
  {
    IncludesIffOccurs(font, WideFont);
    if Includes(font, WideFont) then SmallSize else LargeSize
  }

  /** The font handler's size rule holds of a style. */
  predicate SizeMatchesFont(s: Style) {
    s.fontSize == FontSizeFor(s.fontFamily)
  }

  function ApplyColor(page: Page, c: string): Page {
    page.(style := page.style.(color := c, textShadow := Glow(c)), colorPicker := c)
  }

  function ApplyFont(page: Page, font: string): Page {
    page.(style := page.style.(fontFamily := font), fontPicker := font)
  }

  // ---------------------------------------------------------------------
  // The handlers as written

  /** The start-up restore: a truthy stored colour sets the colour, its
      glow and the colour picker; a truthy stored font sets the font family
      and the font picker. The font size is never touched. */
  function Load(store: Store, page: Page): (r: Page)
    ensures r.style.fontSize == page.style.fontSize
    ensures Truthy(GetItem(store, ColorKey)) ==>
      && r.style.color == store[ColorKey] && r.colorPicker == store[ColorKey]
      && r.style.textShadow == Glow(store[ColorKey])
    ensures !Truthy(GetItem(store, ColorKey)) ==>
      r.style.color == page.style.color && r.style.textShadow == page.style.textShadow
      && r.colorPicker == page.colorPicker
    ensures Truthy(GetItem(store, FontKey)) ==>
      r.style.fontFamily == store[FontKey] && r.fontPicker == store[FontKey]
    ensures !Truthy(GetItem(store, FontKey)) ==>
      r.style.fontFamily == page.style.fontFamily && r.fontPicker == page.fontPicker
  {
    var savedColor := GetItem(store, ColorKey);
    var savedFont := GetItem(store, FontKey);
    var withColor := if Truthy(savedColor) then ApplyColor(page, savedColor.value) else page;
    if Truthy(savedFont) then ApplyFont(withColor, savedFont.value) else withColor
  }

  /** The colour picker's `input` handler for the picked value `c`, which
      the picker itself already shows. */
  function SetColor(store: Store, page: Page, c: string): (r: (Store, Page))
    ensures ColorKey in r.0 && r.0[ColorKey] == c
    ensures r.0 - {ColorKey} == store - {ColorKey}
    ensures r.1.style.color == c && r.1.colorPicker == c
    ensures r.1.style.textShadow == Glow(c)
    ensures r.1.style.fontFamily == page.style.fontFamily && r.1.style.fontSize == page.style.fontSize
    ensures r.1.fontPicker == page.fontPicker
  {
    (store[ColorKey := c], ApplyColor(page, c))
  }

  /** The font picker's `change` handler for the picked value `font`. */
  function SetFont(store: Store, page: Page, font: string): (r: (Store, Page))
    ensures FontKey in r.0 && r.0[FontKey] == font
    ensures r.0 - {FontKey} == store - {FontKey}
    ensures r.1.style.fontFamily == font && r.1.fontPicker == font
    ensures SizeMatchesFont(r.1.style)
    ensures r.1.style.color == page.style.color && r.1.style.textShadow == page.style.textShadow
    ensures r.1.colorPicker == page.colorPicker
  {
    var p := ApplyFont(page, font);
    (store[FontKey := font], p.(style := p.style.(fontSize := FontSizeFor(font))))
  }

  /** The reset button: the default colour with the fixed orange glow and
      the default font on the element and the pickers; the two keys are
      removed from the store, not overwritten. The font size is left as
      it was. */
  function Reset(store: Store, page: Page): (r: (Store, Page))
    ensures r.0 == store - {ColorKey, FontKey}
    ensures r.1.style == Style(DefaultColor, ResetShadow, DefaultFont, page.style.fontSize)
    ensures r.1.colorPicker == DefaultColor && r.1.fontPicker == DefaultFont
  {
    var style := page.style.(color := DefaultColor, textShadow := ResetShadow, fontFamily := DefaultFont);
    (store - {ColorKey, FontKey}, Page(style, DefaultColor, DefaultFont))
  }

  // ---------------------------------------------------------------------
  // Properties of the handlers as written

  /** Loading twice from the same store is loading once. */
  lemma LoadIdempotent(store: Store, page: Page)
    ensures Load(store, Load(store, page)) == Load(store, page)
  {
  }

  /** A colour set by the handler is what a later load restores, glow and
      picker included, into any page; the colour input never yields the
      empty string, the one value the load would skip as falsy. */
  lemma ColorRoundTrip(store: Store, page: Page, c: string, later: Page)
    ensures var (saved, shown) := SetColor(store, page, c);
      c != "" ==> && Load(saved, later).style.color == shown.style.color
                  && Load(saved, later).style.textShadow == shown.style.textShadow
                  && Load(saved, later).colorPicker == shown.colorPicker
    ensures var (saved, shown) := SetColor(store, page, c);
      c == "" ==> Load(saved, later).style.color == later.style.color
  {
  }

  /** A font set by the handler is what a later load restores into any
      page, but only as the family: the size stays what that page had. */
  lemma FontRoundTrip(store: Store, page: Page, font: string, later: Page)
    requires font != ""
    ensures var (saved, shown) := SetFont(store, page, font);
      && Load(saved, later).style.fontFamily == shown.style.fontFamily
      && Load(saved, later).fontPicker == shown.fontPicker
      && Load(saved, later).style.fontSize == later.style.fontSize
  {
  }

  /** Reset keeps every other key, the stored offset among them, and a
      load after it changes nothing on the page. */
  lemma ResetThenLoad(store: Store, page: Page)
    ensures var (cleared, shown) := Reset(store, page);
      && (forall k :: k != ColorKey && k != FontKey ==> GetItem(cleared, k) == GetItem(store, k))
      && Load(cleared, shown) == shown
  {
  }

  /** The size rule on the two fonts the page ships with. */
  lemma FontSizeExamples()
    ensures FontSizeFor(WideFont) == SmallSize
    ensures FontSizeFor(DefaultFont) == LargeSize
  {
    assert OccursAt(WideFont, WideFont, 0);
    NoOccurrenceWithoutFirstChar(DefaultFont, WideFont);
  }

  /** A string cannot occur where its first character does not. */
  lemma NoOccurrenceWithoutFirstChar(s: string, w: string)
    requires |w| > 0 && w[0] !in s
    ensures !exists i :: OccursAt(s, w, i)
  {
  }

  // ---------------------------------------------------------------------
  // The font size after a load or a reset

  /** After a load that restores a font, the size rule holds only if the
      page's size already suited that font: the load does not apply it. */
  lemma LoadLeavesSizeUnmatched(store: Store, page: Page)
    requires Truthy(GetItem(store, FontKey))
    ensures SizeMatchesFont(Load(store, page).style) <==> page.style.fontSize == FontSizeFor(store[FontKey])
  {
  }

  /** A saved "Sixtyfour" restored into a page at the large size is shown
      at the large size. */
  lemma LoadShowsWideFontLarge(page: Page)
    requires page.style.fontSize == LargeSize
    ensures Load(map[FontKey := WideFont], page).style.fontFamily == WideFont
    ensures Load(map[FontKey := WideFont], page).style.fontSize == LargeSize
    ensures !SizeMatchesFont(Load(map[FontKey := WideFont], page).style)
  {
    FontSizeExamples();
  }

  /** After a reset, the size rule holds only if the size was already the
      one of the default font. */
  lemma ResetLeavesSizeUnmatched(store: Store, page: Page)
    ensures SizeMatchesFont(Reset(store, page).1.style) <==> page.style.fontSize == LargeSize
  {
    FontSizeExamples();
  }

  /** Choosing "Sixtyfour" and then resetting shows the default font at the
      small size. */
  lemma ResetAfterWideFont(store: Store, page: Page)
    ensures var (s1, p1) := SetFont(store, page, WideFont);
      && Reset(s1, p1).1.style.fontFamily == DefaultFont
      && Reset(s1, p1).1.style.fontSize == SmallSize
      && !SizeMatchesFont(Reset(s1, p1).1.style)
  {
    FontSizeExamples();
  }

  /** The load with the font handler's size rule applied to a restored font. */
  function LoadWithSize(store: Store, page: Page): (r: Page)
    ensures Truthy(GetItem(store, FontKey)) ==> SizeMatchesFont(r.style)
    ensures SizeMatchesFont(page.style) ==> SizeMatchesFont(r.style)
    ensures r.(style := r.style.(fontSize := page.style.fontSize)) == Load(store, page)
    ensures !Truthy(GetItem(store, FontKey)) ==> r == Load(store, page)
  {
    var p := Load(store, page);
    if Truthy(GetItem(store, FontKey)) then p.(style := p.style.(fontSize := FontSizeFor(p.style.fontFamily)))
    else p
  }

  /** The reset with the font handler's size rule applied to the default font. */
  function ResetWithSize(store: Store, page: Page): (r: (Store, Page))
    ensures r.0 == store - {ColorKey, FontKey}
    ensures SizeMatchesFont(r.1.style) && r.1.style.fontSize == LargeSize
    ensures r.1.(style := r.1.style.(fontSize := page.style.fontSize)) == Reset(store, page).1
  {
    FontSizeExamples();
    var (s1, p1) := Reset(store, page);
    (s1, p1.(style := p1.style.(fontSize := FontSizeFor(DefaultFont))))
  }

  /** With the corrected load and reset every handler keeps the size rule:
      a page whose size suits its font still does after any of them. */
  lemma SizeRuleKept(store: Store, page: Page, c: string, font: string)
    requires SizeMatchesFont(page.style)
    ensures SizeMatchesFont(LoadWithSize(store, page).style)
    ensures SizeMatchesFont(SetColor(store, page, c).1.style)
    ensures SizeMatchesFont(SetFont(store, page, font).1.style)
    ensures SizeMatchesFont(ResetWithSize(store, page).1.style)
  {
  }
}

=== FILE: storage.dfy ===
/** The page's `localStorage`: a map from keys to string values. */
module Storage {
  import opened Wrappers

  type Store = map<string, string>

  const TzOffsetKey: string := "tz_offset"
  const ColorKey: string := "timeColor"
  const FontKey: string := "timeFont"

  /** `getItem(key)`: None is `null`, the answer for a missing key. */
  function GetItem(store: Store, key: string): Option<string> {
    if key in store then Some(store[key]) else None
  }

  /** The truthiness of what `getItem` returns: `null` and the empty
      string are falsy, every other string is truthy. */
  predicate Truthy(v: Option<string>) {
    v.Some? && v.value != ""
  }

  /** ToString of what `getItem` returns, as `parseInt` applies it:
      `null` becomes the four letters "null". */
  function NullableToString(v: Option<string>): string {
    match v
    case None => "null"
    case Some(s) => s
  }
}

=== FILE: time_value.dfy ===
/** Time values and their UTC fields, section 21.4.1 of ECMA-262.
    A time value counts milliseconds from the epoch. For a positive
    divisor Dafny's `/` is floor division and its `%` is the standard's
    non-negative "modulo", so the field functions below are the standard's
    formulas word for word, negative time values included. */
module TimeValue {
  import opened Wrappers

  const MsPerSecond: int := 1000
  const MsPerMinute: int := 60000
  const MsPerHour: int := 3600000

  /** The largest magnitude a Date can hold; TimeClip gives NaN beyond it. */
  const MaxTimeMagnitude: int := 8_640_000_000_000_000

  function HourFromTime(t: int): (h: int)
    ensures 0 <= h < 24
  {
    (t / MsPerHour) % 24
  }

  function MinFromTime(t: int): (m: int)
    ensures 0 <= m < 60
  {
    (t / MsPerMinute) % 60
  }

  function SecFromTime(t: int): (s: int)
    ensures 0 <= s < 60
  {
    (t / MsPerSecond) % 60
  }

  /** TimeClip of an integral time value: None stands for NaN. A time
      value is kept exactly when it lies within 8.64e15 ms of the epoch. */
  function TimeClip(t: int): (r: Option<int>)
    ensures r.Some? <==> -MaxTimeMagnitude <= t <= MaxTimeMagnitude
    ensures r.Some? ==> r.value == t
  {
    if -MaxTimeMagnitude <= t <= MaxTimeMagnitude then Some(t) else None
  }

  /** getUTCHours, getUTCMinutes and getUTCSeconds of a Date whose time
      value is `tv`; each gives NaN (None) on an invalid Date. */
  function UtcHours(tv: Option<int>): Option<int> {
    match tv
    case None => None
    case Some(t) => Some(HourFromTime(t))
  }

  function UtcMinutes(tv: Option<int>): Option<int> {
    match tv
    case None => None
    case Some(t) => Some(MinFromTime(t))
  }

  function UtcSeconds(tv: Option<int>): Option<int> {
    match tv
    case None => None
    case Some(t) => Some(SecFromTime(t))
  }

  /** What a 24-hour clock face shows. */
  datatype Face = Face(hour: int, minute: int, second: int)

  function FaceOf(t: int): Face {
    Face(HourFromTime(t), MinFromTime(t), SecFromTime(t))
  }

  /** One second later on a 24-hour face: seconds carry into minutes,
      minutes into hours, and 23:59:59 wraps to 00:00:00. */
  function NextSecond(f: Face): Face {
    if f.second < 59 then f.(second := f.second + 1)
    else if f.minute < 59 then Face(f.hour, f.minute + 1, 0)
    else if f.hour < 23 then Face(f.hour + 1, 0, 0)
    else Face(0, 0, 0)
  }

  /** Floor division by a product is floor division twice. */
  lemma DivDiv(t: int, a: int, b: int)
    requires a > 0 && b > 0
    ensures t / (a * b) == (t / a) / b
  {
    var q, r := t / a, t % a;
    var q2, r2 := q / b, q % b;
    assert t == a * (b * q2 + r2) + r;
    assert a * (b * q2 + r2) == (a * b) * q2 + a * r2;
    assert a * r2 <= a * (b - 1) by {
      MulMonotone(a, r2, b - 1);
    }
    assert a * (b - 1) == a * b - a;
    DivUnique(t, a * b, q2, a * r2 + r);
  }

  lemma MulMonotone(a: int, x: int, y: int)
    requires a >= 0 && x <= y
    ensures a * x <= a * y
  {
    assert a * y - a * x == a * (y - x);
  }

  /** Floor division is the unique quotient with a remainder in [0, d). */
  lemma DivUnique(t: int, d: int, q: int, r: int)
    requires d > 0 && 0 <= r < d && t == d * q + r
    ensures t / d == q && t % d == r
  {
    var q0, r0 := t / d, t % d;
    assert d * q0 + r0 == d * q + r;
    assert d * (q0 - q) == r - r0;
    var k := q0 - q;
    if k >= 1 {
      MulMonotone(d, 1, k);
    } else if k <= -1 {
      MulMonotone(d, k, -1);
    }
  }

  /** Every field of the face depends only on the whole seconds of `t`. */
  lemma {:induction false} FaceOfWholeSeconds(t: int)
    ensures var s := t / MsPerSecond;
      FaceOf(t) == Face((s / 3600) % 24, (s / 60) % 60, s % 60)
  {
    DivDiv(t, 1000, 60);
    DivDiv(t, 1000, 3600);
  }

  /** Adding one to `x` moves `x / d` on exactly when `x % d` wraps. */
  lemma Successor(x: int, d: int)
    requires d > 0
    ensures x % d < d - 1 ==> (x + 1) / d == x / d && (x + 1) % d == x % d + 1
    ensures x % d == d - 1 ==> (x + 1) / d == x / d + 1 && (x + 1) % d == 0
  {
    if x % d < d - 1 {
      DivUnique(x + 1, d, x / d, x % d + 1);
    } else {
      DivUnique(x + 1, d, x / d + 1, 0);
    }
  }

  /** Numbers with the same remainder have successors with the same
      remainder. */
  lemma SameSuccessor(a: int, b: int, d: int)
    requires d > 0 && a % d == b % d
    ensures (a + 1) % d == (b + 1) % d
  {
    Successor(a, d);
    Successor(b, d);
  }

  /** Adding two commutes with reduction modulo `d`. */
  lemma ModAddTwo(x: int, d: int)
    requires d > 0
    ensures (x + 2) % d == (x % d + 2) % d
  {
    DivUnique(x + 2, d, x / d + (x % d + 2) / d, (x % d + 2) % d);
  }

  /** From any instant to the next whole second, the face moves on by
      exactly one second, with every carry. */
  lemma {:induction false} NextWholeSecondAdvancesFace(t: int)
    ensures FaceOf((t / MsPerSecond + 1) * MsPerSecond) == NextSecond(FaceOf(t))
  {
    var s := t / MsPerSecond;
    var t' := (s + 1) * MsPerSecond;
    DivUnique(t', MsPerSecond, s + 1, 0);
    FaceOfWholeSeconds(t);
    FaceOfWholeSeconds(t');
    var m := s / 60;
    Successor(s, 60);
    Successor(m, 60);
    DivDiv(s, 60, 60);
    DivDiv(s + 1, 60, 60);
    Successor(m / 60, 24);
  }
}

=== FILE: wrappers.dfy ===
/** The optional-value datatype shared by the model: `None` stands for the
    JavaScript values the source treats as missing (a `null` from storage,
    a `NaN` from `parseInt` or a getter on an invalid date). */
module Wrappers {

  datatype Option<+T> = None | Some(value: T)
}
